=== FILE: README.md ===
# Nagar Alert Hub — verified model of the decision rules

Nagar Alert Hub is a community-incident dashboard prototype. Residents'
reports ("alerts") about traffic, power and water gather supporters. Each
alert carries a confidence level (low, medium, high). The city header
summarises the alert list as calm, moderate or alert. Almost all of the
application is presentation. This project models the small set of pure
decision rules underneath it, each as a Dafny function over immutable
datatypes, and proves their properties.

- `Alerts` (`alerts.dfy`): the `Alert` record, the support handler that
  adds one supporter to every alert with a given id and re-bands its
  confidence, repeated support, and the five seeded alerts.
- `City` (`city.dfy`): the header counters, the first-match city status
  rule and its advisory message.
- `Text` (`text.dfy`): ASCII lower/upper-casing and substring search
  (`includes`), both as a predicate and as a scanning method.
- `Users` (`users.dfy`): the user search filter, the stats cards and the
  role colour lookup of the user-management screen.
- `Console` (`console.dfy`): trust-score colours, contributor badges, the
  pending-review figure and the recent-reports table of the review console.
- `Overlay` (`overlay.dfy`): the confidence table, the milestone timeline,
  the missing-alert guard and the support button's wiring in the detail
  overlay.
- `Seqs` and `Wrappers`: `filter`/`slice` on sequences with an independent
  subsequence relation, and `Option`.

The confidence level is not a function of the supporter count alone. The
support handler in `src/app/App.tsx` checks `>= 40` (high), then `>= 15`
(medium), and otherwise keeps the previous level. So support never drops an
alert to `low`, and a `high` alert whose new count is in [15, 40) drops to
`medium`; below 15 it stays `high`.
The seeded "Road Construction Delay" alert (34 supporters, `high`) is
demoted by a single support. The plain three-band reading (below 15 low,
below 40 medium, otherwise high) is kept as `Alerts.Classify`, a reference
definition; `Alerts.RebandMatchesClassify` states exactly when the handler
agrees with it, and `Alerts.RepeatedSupport` shows that it does once a count
reaches 15 through support.

TypeScript `number` values (supporters, views, trust scores) are modelled
as unbounded `int`; only integer counts occur in the rules modelled. React
state setters are replaced by functions from the old list to the new one.

## Model

| member | source | states |
|---|---|---|
| Alerts.SupportOne | src/app/App.tsx:149-163 | the supported alert has one more supporter, its level re-banded from the new count, and every other field (id, type, texts, timestamp, views, priority, image, reporter, trust score) unchanged |
| Alerts.SupportAlert | src/app/App.tsx:146-168 | the list keeps its length and order; every alert whose id matches is supported once, every other alert is returned as it was |
| Alerts.RebandMatchesClassify | src/app/App.tsx:151-157 | the handler's new level equals the plain three-band classification exactly when the new count is at least 15 or the previous level was low |
| Alerts.Reband | src/app/App.tsx:151-157 | a new count of 40 or more gives high, a count in [15, 40) gives medium whatever the previous level, and a count below 15 keeps the previous level |
| Alerts.RebandNeverDropsToLow | src/app/App.tsx:151-157 | re-banding never produces low from medium or high, and it takes a high alert down exactly when the new count is in [15, 40) |
| Alerts.ClassifyMonotone | src/app/App.tsx:153-157 | the band thresholds are monotone: more supporters never give a lower band |
| Alerts.UnknownIdUnchanged | src/app/App.tsx:147-165 | supporting an id that no alert carries leaves the whole list unchanged |
| Alerts.SupportNotIdempotent | src/app/App.tsx:149-162 | two supports add two supporters to a matching alert, so supporting twice differs from supporting once |
| Alerts.RepeatedSupport | src/app/App.tsx:146-168 | after k supports a matching alert has k more supporters and every field other than supporters and confidence unchanged; its level is the band of the final count once that reaches 15 and the original level while it stays below 15; other alerts are untouched |
| Alerts.SeedSupportDemotes | src/app/App.tsx:92-105 | the seeded alert with 34 supporters and level high becomes medium with 35 supporters after one support |
| Alerts.SupportReachesVerified | src/app/App.tsx:150-154 | an alert at 39 supporters and medium becomes high at 40 |
| City.HighPriorityCountAdds | src/app/App.tsx:182 | the high-priority count adds up over concatenated lists and a single alert counts 1 exactly when its priority is high, so it is the number of high-priority alerts |
| City.Stats | src/app/App.tsx:175-179 | monitoring is the list length, resolved is 18, and active alerts plus high-confidence alerts add up to monitoring, so active never exceeds it |
| City.Status | src/app/App.tsx:181-186 | alert iff more than 2 high-priority alerts; otherwise moderate iff more than 5 alerts; otherwise calm |
| City.Message | src/app/App.tsx:188-193 | alert, moderate and calm each map to their own fixed advisory, in both directions |
| City.MessageInjective | src/app/App.tsx:188-193 | each status has its own fixed advisory message; two statuses share a message only if they are equal |
| City.SupportKeepsStatus | src/app/App.tsx:146-186 | supporting an alert changes neither the city status nor the monitoring count |
| City.MoreAlertsNeverCalmer | src/app/App.tsx:181-186 | a list that contains another list in order never has a calmer status |
| City.AppendNeverCalmer | src/app/App.tsx:181-186 | adding an alert to the end of the list never lowers the status |
| City.SixWithOneHighPriorityIsModerate | src/app/App.tsx:181-186 | six alerts with one high-priority alert give moderate |
| City.ThreeHighPriorityIsAlert | src/app/App.tsx:181-186 | three high-priority alerts give alert, whatever the size rule says |
| City.SeedIsCalm | src/app/App.tsx:32-106 | the seeded list of five alerts, one of them high priority, reads calm |
| Text.Lower | src/app/components/UserManagement.tsx:95-97 | the lower-cased string contains no upper-case ASCII letter and upper-cases to the same string as the input |
| Text.LowerUnique | src/app/components/UserManagement.tsx:95-97 | those two properties of the lower-cased string determine it uniquely |
| Text.LowerIgnoresCase | src/app/components/UserManagement.tsx:95-97 | lower-casing is idempotent and gives the same string for the upper-cased input |
| Text.ContainsTransitive | src/app/components/UserManagement.tsx:95-97 | a substring of a substring of a text is a substring of the text |
| Text.ContainsLower | src/app/components/UserManagement.tsx:95-97 | lower-casing text and term keeps an occurrence of the term |
| Text.Includes | src/app/components/UserManagement.tsx:95-97 | the scan finds the term exactly when it occurs somewhere in the text |
| Users.FilterUsers | src/app/components/UserManagement.tsx:93-98 | the result is an order-preserving subsequence of the users; a user is kept iff the lower-cased term occurs in the lower-cased name, email or role |
| Users.FilterUsersKeepsEveryCopy | src/app/components/UserManagement.tsx:93-98 | the result holds every copy of a matching user and no copy of any other user, which with the subsequence property fixes the result |
| Users.EmptyTermKeepsAll | src/app/components/UserManagement.tsx:93-98 | an empty search term keeps every user, in order |
| Users.CaseInsensitiveSearch | src/app/components/UserManagement.tsx:95-97 | the upper- and lower-cased forms of a term select the same users as the term |
| Users.RefinedSearchNarrows | src/app/components/UserManagement.tsx:94-97 | if the old term occurs in the new term, the new result is a subsequence of the old one |
| Users.Stats | src/app/components/UserManagement.tsx:156-159 | the total is the list length; active users plus inactive users make up the total; admins plus managers stay within the total |
| Users.StatsCount | src/app/components/UserManagement.tsx:156-159 | every counter adds up over concatenated lists, and one user counts 1 in the total and 1 in active, admins or managers exactly when its status is active or its role is exactly "Admin" or "Manager" |
| Users.RoleColor | src/app/components/UserManagement.tsx:100-109 | "Admin" and "Manager" get their own gradients, every other role gets the gray default |
| Users.RoleColorCaseSensitive | src/app/components/UserManagement.tsx:95-109 | a user whose role is "admin" is found by searching for "Admin" but is coloured with the default gradient |
| Console.TrustScoreColor | src/app/components/OperatorConsole.tsx:56-60 | green iff the score is at least 80, amber iff it is in 60..79, red iff below 60 |
| Console.TrustBandMonotone | src/app/components/OperatorConsole.tsx:56-60 | a higher score never gets a less favourable colour |
| Console.StatusBadge | src/app/components/OperatorConsole.tsx:62-73 | verified, new and flagged show the captions "Verified", "New" and "Flagged" |
| Console.StatusBadgeFor | src/app/components/OperatorConsole.tsx:62-73 | a string key finds a badge iff it is one of the three status keys, and then the badge of that status |
| Console.ContributorCard | src/app/components/OperatorConsole.tsx:210-234 | a contributor's card shows the badge of its status with its caption, and its trust score green iff at least 80 and red iff below 60 |
| Console.SeedContributorCards | src/app/components/OperatorConsole.tsx:28-53 | the two verified seeded contributors show green scores; the new one, at 45, shows the New badge and a red score |
| Console.BadgeLabelsDistinct | src/app/components/OperatorConsole.tsx:62-73 | distinct statuses show distinct captions |
| Console.ConfidenceTone | src/app/components/OperatorConsole.tsx:175-181 | the confidence colour ranks exactly as the level: high green, medium amber, low red |
| Console.ShortId | src/app/components/OperatorConsole.tsx:167 | the shown id is the prefix of the id of length min(6, id length) |
| Console.View | src/app/components/OperatorConsole.tsx:103-181 | pending review is the number of alerts passed in; the table holds min(5, n) rows, row i showing alert i's id prefix, type, level and the level's colour |
| Console.SeedIdsLookAlike | src/app/components/OperatorConsole.tsx:167 | every seeded alert is shown with the same id prefix "alert-" |
| Overlay.Config | src/app/components/AlertDetailOverlay.tsx:42-58 | each level's caption is the timeline label at its rank ("Reported", "Community Supported", "Verified"), its progress is 33, 66 or 100, and only high reaches 100 |
| Overlay.ProgressStrictlyIncreasing | src/app/components/AlertDetailOverlay.tsx:42-58 | progress grows strictly from low to medium to high, and the three captions are distinct |
| Overlay.ColorsAgreeWithConsole | src/app/components/AlertDetailOverlay.tsx:42-58 | each level's overlay colour is the colour the review console uses for it |
| Overlay.Milestones | src/app/components/AlertDetailOverlay.tsx:158-168 | there are three milestones and milestone k is lit iff k is at most the level's rank |
| Overlay.MilestonesFollowRank | src/app/components/AlertDetailOverlay.tsx:158-168 | milestone k is lit iff k is at most the level's rank, so the lit milestones are downward closed and number rank + 1 |
| Overlay.Render | src/app/components/AlertDetailOverlay.tsx:66-74 | nothing is shown for a missing alert or a closed overlay; otherwise the level's caption, colour and progress, three milestones with milestone k lit iff k is at most the level's rank, and a support button for the alert's own id iff a callback is supplied |
| Overlay.PressSupport | src/app/components/AlertDetailOverlay.tsx:253-257 | pressing applies the support handler to the button's id iff a button is shown: alerts with that id are supported once, all others are kept, and the length is unchanged |
| Overlay.OverlaySupportWiring | src/app/components/AlertDetailOverlay.tsx:253-257 | without a callback there is no button; with the application's handler, pressing it gives the shown alert one more supporter and leaves alerts with other ids alone |

## Left out

- JSX rendering, Tailwind class strings other than the role, badge and colour lookups, and `motion` animations: presentation only.
- The alert-type icon and gradient table of the detail overlay, and its optional trust score, photo and reporter panels: rendering of inert fields.
- The fixed console figures (247 total reports, 156 verified users, 12 needing merge), the contributor list rendering and the unused `onMergeReports` prop: static literals.
- The "Saved!" timer in the settings page, the charts of the dashboard and analytics pages, the static mockup components, map marker placement, the city-pulse style lookup and the alert card: timers, an external charting library and display-only code.
- The selected-alert snapshot: the application opens the overlay with the alert object that was clicked and does not refresh it after a support, so the overlay keeps showing the old figures. The model renders whatever alert it is given and does not track this view state.
- View switching and the open/close state of panels: trivial UI state.
- Alerts.SupportNotIdempotent: supporter counts are unbounded integers. The source adds 1 to a JavaScript double, which stops changing at 2^53, so there two supports equal one; such counts do not arise from real support clicks.
- Console.StatusBadgeFor: returns `None` for every key other than the three statuses. The source throws on a key missing from its table and renders a badge with undefined styles and an empty caption for a key inherited from the object prototype; contributor statuses are typed, so neither case arises from the source's own data.
- Console.ShortId: counts the id's length and takes its prefix in Unicode characters, while `slice(0, 6)` counts UTF-16 code units; the two differ only for ids with characters outside the Basic Multilingual Plane (where the source can even cut a surrogate pair), and the application's ids are ASCII.
- Console.View: the id column inherits the same difference from Console.ShortId; the pending count, row count and row order are unaffected.
- Text.Lower: lowers ASCII letters only, because full Unicode `toLowerCase` (multi-character and locale-dependent mappings) is out of scope; the search properties are stated for this lower-casing.
- Overlay.Render: a closed overlay renders an empty animation container in the source rather than `null`; both show nothing and the model returns `None` for both.

=== FILE: alerts.dfy ===
/** The alert record of src/app/App.tsx and the "support this report"
    handler that raises an alert's supporter count and re-bands its
    confidence level. */
module Alerts {
  import opened Wrappers

  datatype Confidence = Low | Medium | High
  datatype Category = Traffic | Power | Water
  datatype Priority = PriorityHigh | PriorityNormal

  /** One community report. Optional fields of the source record are
      `Option`s; `supporters`, `views` and `trustScore` are whole numbers. */
  datatype Alert = Alert(
    id: string,
    category: Category,
    title: string,
    location: string,
    description: string,
    confidence: Confidence,
    timestamp: string,
    supporters: int,
    views: int,
    priority: Option<Priority>,
    imageUrl: Option<string>,
    reportedBy: Option<string>,
    trustScore: Option<int>)

  /** Supporter count from which a report is shown as verified. */
  const HighThreshold: int := 40
  /** Supporter count from which a report is shown as community supported. */
  const MediumThreshold: int := 15

  /** Position of a level in the order low < medium < high. */
  function Rank(c: Confidence): (r: nat)
    ensures r <= 2
    ensures r == 0 <==> c == Low
    ensures r == 2 <==> c == High
  {
    match c
    case Low => 0
    case Medium => 1
    case High => 2
  }

  /** Reference classification of a supporter count by the three bands
      alone, with no memory of the previous level. */
  function Classify(n: int): (r: Confidence)
    ensures r == High <==> n >= HighThreshold
    ensures r == Low <==> n < MediumThreshold
  {
    if n >= HighThreshold then High
    else if n >= MediumThreshold then Medium
    else Low
  }

  /** The level the support handler assigns when the count becomes `n`,
      given the level `previous` the alert had: the two thresholds are
      checked from the top, and below both the previous level is kept. */
  function Reband(previous: Confidence, n: int): (r: Confidence)
    ensures n >= HighThreshold ==> r == High
    ensures MediumThreshold <= n < HighThreshold ==> r == Medium
    ensures n < MediumThreshold ==> r == previous
  {
    if n >= HighThreshold then High
    else if n >= MediumThreshold then Medium
    else previous
  }

  /** `after` carries the same report as `before`: every field other than
      the supporter count and the confidence level is equal. */
  ghost predicate SameReport(before: Alert, after: Alert) {
    && after.id == before.id
    && after.category == before.category
    && after.title == before.title
    && after.location == before.location
    && after.description == before.description
    && after.timestamp == before.timestamp
    && after.views == before.views
    && after.priority == before.priority
    && after.imageUrl == before.imageUrl
    && after.reportedBy == before.reportedBy
    && after.trustScore == before.trustScore
  }

  /** `after` is `before` with one more supporter, re-banded, and every
      other field as it was. */
  ghost predicate SupportedOnce(before: Alert, after: Alert) {
    && after.supporters == before.supporters + 1
    && after.confidence == Reband(before.confidence, before.supporters + 1)
    && SameReport(before, after)
  }

  /** The record-spread update the handler applies to a matching alert. */
  function SupportOne(a: Alert): (r: Alert)
    ensures SupportedOnce(a, r)
  {
    var n := a.supporters + 1;
    a.(supporters := n, confidence := Reband(a.confidence, n))
  }

  /** `handleSupportAlert(id)`: maps over the list, supporting every alert
      whose id equals `id` and returning every other alert as it was. */
  function SupportAlert(alerts: seq<Alert>, id: string): (r: seq<Alert>)
    ensures |r| == |alerts|
    ensures forall i :: 0 <= i < |alerts| && alerts[i].id == id ==> SupportedOnce(alerts[i], r[i])
    ensures forall i :: 0 <= i < |alerts| && alerts[i].id != id ==> r[i] == alerts[i]
  {
    if |alerts| == 0 then []
    else
      var head := if alerts[0].id == id then SupportOne(alerts[0]) else alerts[0];
      [head] + SupportAlert(alerts[1..], id)
  }

  /** `k` successive support actions on the same id. */
  function SupportTimes(alerts: seq<Alert>, id: string, k: nat): seq<Alert>
  {
    if k == 0 then alerts else SupportAlert(SupportTimes(alerts, id, k - 1), id)
  }

  /** The handler's level agrees with the reference bands exactly when the
      new count reaches a band or the previous level was already low. */
  lemma RebandMatchesClassify(previous: Confidence, n: int)
    ensures Reband(previous, n) == Classify(n) <==> n >= MediumThreshold || previous == Low
  {
  }

  /** The reference bands are monotone: more supporters never give a
      lower level. */
  lemma ClassifyMonotone(m: int, n: int)
    requires m <= n
    ensures Rank(Classify(m)) <= Rank(Classify(n))
  {
  }

  /** Re-banding never produces `low` from a higher level, but it does
      demote `high` to `medium`: only counts of 40 and more keep `high`. */
  lemma RebandNeverDropsToLow(previous: Confidence, n: int)
    ensures Reband(previous, n) == Low ==> previous == Low
    ensures previous == High && Reband(previous, n) != High <==> previous == High && MediumThreshold <= n < HighThreshold
  {
  }

  /** An id that no alert carries leaves the list as it was. */
  lemma UnknownIdUnchanged(alerts: seq<Alert>, id: string)
    requires forall i :: 0 <= i < |alerts| ==> alerts[i].id != id
    ensures SupportAlert(alerts, id) == alerts
  {
  }

  /** Support is a counter, not a toggle: supporting twice is observably
      different from supporting once whenever the id is present. */
  lemma SupportNotIdempotent(alerts: seq<Alert>, id: string, i: int)
    requires 0 <= i < |alerts| && alerts[i].id == id
    ensures SupportAlert(SupportAlert(alerts, id), id)[i].supporters == alerts[i].supporters + 2
    ensures SupportAlert(SupportAlert(alerts, id), id) != SupportAlert(alerts, id)
  {
    var once := SupportAlert(alerts, id);
    var twice := SupportAlert(once, id);
    assert once[i].id == id;
    assert twice[i].supporters == once[i].supporters + 1;
  }

  /** After `k` supports on `id`: the list keeps its length, every other
      alert is untouched, a matching alert has `k` more supporters, all its
      other fields except the level are unchanged, and its level is the reference band
      of the final count once that count reaches 15, or the original level
      while the count stays below 15. */
  lemma {:induction false} RepeatedSupport(alerts: seq<Alert>, id: string, k: nat, i: int)
    requires 0 <= i < |alerts|
    ensures |SupportTimes(alerts, id, k)| == |alerts|
    ensures alerts[i].id != id ==> SupportTimes(alerts, id, k)[i] == alerts[i]
    ensures alerts[i].id == id ==>
      var a, b := alerts[i], SupportTimes(alerts, id, k)[i];
      && b.supporters == a.supporters + k
      && SameReport(a, b)
      && (k > 0 && a.supporters + k >= MediumThreshold ==> b.confidence == Classify(a.supporters + k))
      && (a.supporters + k < MediumThreshold ==> b.confidence == a.confidence)
    decreases k
  {
    if k > 0 {
      RepeatedSupport(alerts, id, k - 1, i);
      var prev := SupportTimes(alerts, id, k - 1);
      if alerts[i].id == id {
        assert prev[i].id == id;
        assert SupportedOnce(prev[i], SupportTimes(alerts, id, k)[i]);
      }
    }
  }

  /** The five reports the application starts with. */
  const SeedAlerts: seq<Alert> := [
    Alert("alert-001", Traffic, "Heavy Traffic Congestion", "Circular Road, Lalpur",
      "Major traffic jam near the bus stand. Multiple vehicles stuck for over 30 minutes. Alternative routes recommended.",
      High, "2 hours ago", 47, 234, Some(PriorityHigh),
      Some("https://images.unsplash.com/photo-1681026552203-d2ef6b401df4?w=800"), Some("Rajesh Kumar"), Some(92)),
    Alert("alert-002", Power, "Power Outage", "Hindpiri, Sector 3",
      "Complete power outage affecting residential area. No electricity for the past 4 hours. Local transformer issue suspected.",
      Medium, "4 hours ago", 23, 156, None,
      Some("https://images.unsplash.com/photo-1707590220311-ef90eb2408a7?w=800"), Some("Priya Sharma"), Some(78)),
    Alert("alert-003", Water, "Water Supply Disruption", "Kanke Road",
      "No water supply since morning. Pipe burst reported near the main junction. Repair work underway.",
      Low, "30 min ago", 8, 45, None,
      Some("https://images.unsplash.com/photo-1758826898770-c76ce24b4eff?w=800"), Some("Anonymous"), Some(45)),
    Alert("alert-004", Power, "Streetlight Not Working", "Main Road, Doranda",
      "Multiple streetlights are not working, causing safety concerns at night.",
      Medium, "1 day ago", 15, 89, None, None, Some("Amit Singh"), Some(65)),
    Alert("alert-005", Traffic, "Road Construction Delay", "Harmu Bypass",
      "Road construction causing major delays. No clear timeline for completion.",
      High, "3 hours ago", 34, 178, Some(PriorityNormal), None, Some("Sunita Devi"), Some(88))
  ]

  /** The seeded "Road Construction Delay" report is `high` with 34
      supporters; one support gives 35 supporters and demotes it to `medium`. */
  lemma SeedSupportDemotes()
    ensures SeedAlerts[4].confidence == High && SeedAlerts[4].supporters == 34
    ensures SupportAlert(SeedAlerts, "alert-005")[4].supporters == 35
    ensures SupportAlert(SeedAlerts, "alert-005")[4].confidence == Medium
  {
    assert SeedAlerts[4].id == "alert-005";
  }

  /** A report at 39 supporters and `medium` becomes `high` with 40. */
  lemma SupportReachesVerified(a: Alert)
    requires a.supporters == 39 && a.confidence == Medium
    ensures SupportAlert([a], a.id)[0].supporters == 40
    ensures SupportAlert([a], a.id)[0].confidence == High
  {
  }
}

=== FILE: city.dfy ===
/** The city-wide aggregate of src/app/App.tsx: the header counters, the
    status classification and the advisory message shown for it. */
module City {
  import opened Wrappers
  import opened Seqs
  import A = Alerts

  datatype CityStatus = Calm | Moderate | Alert

  /** The counters handed to the city header. */
  datatype CityStats = CityStats(activeAlerts: nat, resolved: nat, monitoring: nat)

  /** More high-priority alerts than this put the city on alert. */
  const AlertPriorityLimit: nat := 2
  /** More alerts than this make the city moderate. */
  const ModerateSizeLimit: nat := 5
  /** The fixed "resolved" figure the header shows. */
  const ResolvedCount: nat := 18

  predicate IsHighPriority(a: A.Alert) {
    a.priority == Some(A.PriorityHigh)
  }

  predicate IsHighConfidence(a: A.Alert) {
    a.confidence == A.High
  }

  predicate IsActive(a: A.Alert) {
    a.confidence != A.High
  }

  function HighPriorityCount(alerts: seq<A.Alert>): (r: nat)
    ensures r <= |alerts|
  {
    |Filter(alerts, IsHighPriority)|
  }

  /** The high-priority count adds up over concatenated lists and a single
      alert counts exactly when its priority is high, so it is the number
      of high-priority alerts. */
  lemma HighPriorityCountAdds(alerts: seq<A.Alert>, more: seq<A.Alert>, a: A.Alert)
    ensures HighPriorityCount(alerts + more) == HighPriorityCount(alerts) + HighPriorityCount(more)
    ensures HighPriorityCount([a]) == if a.priority == Some(A.PriorityHigh) then 1 else 0
  {
    FilterAppend(alerts, more, IsHighPriority);
    FilterSingleton(a, IsHighPriority);
  }

  /** Position of a status in the order calm < moderate < alert. */
  function Severity(s: CityStatus): nat {
    match s
    case Calm => 0
    case Moderate => 1
    case Alert => 2
  }

  /** `cityStats`: the active figure counts the alerts not yet at `high`
      confidence, the monitoring figure is the list length, and the
      resolved figure is fixed. */
  function Stats(alerts: seq<A.Alert>): (r: CityStats)
    ensures r.monitoring == |alerts|
    ensures r.resolved == ResolvedCount
    ensures r.activeAlerts <= r.monitoring
    ensures r.activeAlerts + |Filter(alerts, IsHighConfidence)| == r.monitoring
  {
    FilterComplement(alerts, IsHighConfidence, IsActive);
    CityStats(|Filter(alerts, IsActive)|, ResolvedCount, |alerts|)
  }

  /** `getCityStatus`: first match wins, high-priority count before size. */
  function Status(alerts: seq<A.Alert>): (r: CityStatus)
    ensures r == Alert <==> HighPriorityCount(alerts) > AlertPriorityLimit
    ensures r == Moderate <==> HighPriorityCount(alerts) <= AlertPriorityLimit && |alerts| > ModerateSizeLimit
    ensures r == Calm <==> HighPriorityCount(alerts) <= AlertPriorityLimit && |alerts| <= ModerateSizeLimit
  {
    if HighPriorityCount(alerts) > AlertPriorityLimit then Alert
    else if |alerts| > ModerateSizeLimit then Moderate
    else Calm
  }

  const AlertMessage: string := "Ranchi has multiple active disruptions. Heavy traffic detected in Lalpur."
  const ModerateMessage: string := "Ranchi is experiencing moderate activity. Some areas affected."
  const CalmMessage: string := "Ranchi is mostly calm. Minor issues being monitored."

  /** `getCityMessage`: each status has its own advisory, and each advisory
      belongs to exactly one status. */
  function Message(s: CityStatus): (r: string)
    ensures r == AlertMessage <==> s == Alert
    ensures r == ModerateMessage <==> s == Moderate
    ensures r == CalmMessage <==> s == Calm
  {
    assert |AlertMessage| != |ModerateMessage| && |AlertMessage| != |CalmMessage| && |ModerateMessage| != |CalmMessage|;
    match s
    case Alert => AlertMessage
    case Moderate => ModerateMessage
    case Calm => CalmMessage
  }

  /** Different statuses never share a message, so the message identifies
      the status. */
  lemma MessageInjective(s: CityStatus, t: CityStatus)
    ensures Message(s) == Message(t) <==> s == t
  {
    if s != t {
      assert |Message(s)| != |Message(t)|;
    }
  }

  /** Supporting an alert changes neither the priorities nor the number of
      alerts, so the city status is the same before and after. */
  lemma {:induction false} SupportKeepsStatus(alerts: seq<A.Alert>, id: string)
    ensures Status(A.SupportAlert(alerts, id)) == Status(alerts)
    ensures Stats(A.SupportAlert(alerts, id)).monitoring == Stats(alerts).monitoring
  {
    var after := A.SupportAlert(alerts, id);
    forall i | 0 <= i < |alerts|
      ensures IsHighPriority(alerts[i]) == IsHighPriority(after[i])
    {
      if alerts[i].id == id {
        assert A.SupportedOnce(alerts[i], after[i]);
      }
    }
    FilterCountPointwise(alerts, after, IsHighPriority);
  }

  /** A list that contains another, in order, never reads calmer: adding
      reports can only raise the status. */
  lemma {:induction false} MoreAlertsNeverCalmer(fewer: seq<A.Alert>, more: seq<A.Alert>)
    requires IsSubsequence(fewer, more)
    ensures Severity(Status(fewer)) <= Severity(Status(more))
  {
    SubsequenceLength(fewer, more);
    FilterCountSubsequence(fewer, more, IsHighPriority);
  }

  /** Appending a report never lowers the status. */
  lemma AppendNeverCalmer(alerts: seq<A.Alert>, extra: A.Alert)
    ensures Severity(Status(alerts)) <= Severity(Status(alerts + [extra]))
  {
    PrefixIsSubsequence(alerts, [extra]);
    MoreAlertsNeverCalmer(alerts, alerts + [extra]);
  }

  /** Six reports with one high-priority one read as moderate. */
  lemma SixWithOneHighPriorityIsModerate(alerts: seq<A.Alert>)
    requires |alerts| == 6 && HighPriorityCount(alerts) == 1
    ensures Status(alerts) == Moderate
  {
  }

  /** Three high-priority reports put the city on alert whatever its size. */
  lemma ThreeHighPriorityIsAlert(alerts: seq<A.Alert>)
    requires forall i :: 0 <= i < |alerts| ==> IsHighPriority(alerts[i])
    requires |alerts| == 3
    ensures Status(alerts) == Alert
  {
    FilterKeepsAll(alerts, IsHighPriority);
  }

  /** The seeded list has one high-priority report among five: calm. */
  lemma SeedIsCalm()
    ensures Status(A.SeedAlerts) == Calm
  {
    assert Filter(A.SeedAlerts, IsHighPriority) == [A.SeedAlerts[0]];
  }
}

=== FILE: console.dfy ===
/** The review console of src/app/components/OperatorConsole.tsx: trust
    score banding, contributor badges, the pending-review counter and the
    recent-reports table. */
module Console {
  import opened Wrappers
  import opened Seqs
  import A = Alerts

  /** The three text colours the console uses. */
  datatype Tone = Green | Amber | Red

  datatype ContributorStatus = Verified | New | Flagged

  datatype Contributor = Contributor(
    id: string,
    name: string,
    trustScore: int,
    reportsSubmitted: int,
    accuracy: int,
    status: ContributorStatus)

  /** The style classes and caption of a contributor's status badge. */
  datatype Badge = Badge(bg: string, textClass: string, caption: string)

  /** One row of the recent-reports table. */
  datatype ReportRow = ReportRow(shortId: string, category: A.Category, confidence: A.Confidence, tone: Tone)

  /** What the console derives from the alert list it is given. */
  datatype ConsoleView = ConsoleView(pendingReview: nat, rows: seq<ReportRow>)

  const TrustedScore: int := 80
  const FairScore: int := 60
  /** Rows the reports table shows at most. */
  const TableRows: nat := 5
  /** Characters of an id the table shows. */
  const IdPrefix: nat := 6

  /** The CSS colour of a tone, in the `#RRGGBB` form of the source. */
  function Hex(t: Tone): string {
    match t
    case Green => "#10B981"
    case Amber => "#F59E0B"
    case Red => "#EF4444"
  }

  /** How favourable a tone reads: red < amber < green. */
  function Standing(t: Tone): nat {
    match t
    case Red => 0
    case Amber => 1
    case Green => 2
  }

  /** `getTrustScoreColor`. */
  function TrustScoreColor(score: int): (r: Tone)
    ensures r == Green <==> score >= TrustedScore
    ensures r == Amber <==> FairScore <= score < TrustedScore
    ensures r == Red <==> score < FairScore
  {
    if score >= TrustedScore then Green
    else if score >= FairScore then Amber
    else Red
  }

  /** A higher trust score never gets a less favourable colour. */
  lemma TrustBandMonotone(low: int, high: int)
    requires low <= high
    ensures Standing(TrustScoreColor(low)) <= Standing(TrustScoreColor(high))
  {
  }

  /** `getStatusBadge` on a status of the contributor type. */
  function StatusBadge(s: ContributorStatus): (r: Badge)
    ensures s == Verified ==> r.caption == "Verified"
    ensures s == New ==> r.caption == "New"
    ensures s == Flagged ==> r.caption == "Flagged"
  {
    match s
    case Verified => Badge("bg-[#10B981]/10", "text-[#10B981]", "Verified")
    case New => Badge("bg-primary/10", "text-primary", "New")
    case Flagged => Badge("bg-[#EF4444]/10", "text-[#EF4444]", "Flagged")
  }

  function ParseStatus(key: string): Option<ContributorStatus> {
    if key == "verified" then Some(Verified)
    else if key == "new" then Some(New)
    else if key == "flagged" then Some(Flagged)
    else None
  }

  /** `getStatusBadge` on an arbitrary string key: the three status keys
      find their badges and every other key finds none. The source does not
      stop there: a key missing from the table makes it read the badge's
      style from `undefined` and throw, and a key the table inherits from
      the object prototype ("constructor", "toString", ...) yields a badge
      with undefined styles and an empty caption. Both come out as `None` here. */
  function StatusBadgeFor(key: string): (r: Option<Badge>)
    ensures r.Some? <==> key in {"verified", "new", "flagged"}
    ensures key == "verified" ==> r == Some(StatusBadge(Verified))
    ensures key == "new" ==> r == Some(StatusBadge(New))
    ensures key == "flagged" ==> r == Some(StatusBadge(Flagged))
  {
    match ParseStatus(key)
    case Some(s) => Some(StatusBadge(s))
    case None => None
  }

  /** Distinct statuses show distinct labels. */
  lemma BadgeLabelsDistinct(s: ContributorStatus, t: ContributorStatus)
    ensures StatusBadge(s).caption == StatusBadge(t).caption <==> s == t
  {
    if s != t {
      assert StatusBadge(s).caption[0] != StatusBadge(t).caption[0];
    }
  }

  /** A contributor's card: the badge for its status and the colour of its
      trust score. */
  function ContributorCard(c: Contributor): (r: (Badge, Tone))
    ensures r.0 == StatusBadge(c.status)
    ensures r.1 == Green <==> c.trustScore >= TrustedScore
    ensures r.1 == Red <==> c.trustScore < FairScore
  {
    (StatusBadge(c.status), TrustScoreColor(c.trustScore))
  }

  /** The three contributors the console lists. */
  const SeedContributors: seq<Contributor> := [
    Contributor("1", "Rajesh Kumar", 94, 47, 96, Verified),
    Contributor("2", "Priya Singh", 88, 32, 91, Verified),
    Contributor("3", "Amit Sharma", 45, 5, 60, New)
  ]

  /** The two verified contributors show green scores; the new one, at 45,
      shows red. */
  lemma SeedContributorCards()
    ensures ContributorCard(SeedContributors[0]).1 == Green
    ensures ContributorCard(SeedContributors[1]).1 == Green
    ensures ContributorCard(SeedContributors[2]) == (StatusBadge(New), Red)
  {
  }

  /** The confidence column's colour: green for high, amber for medium and
      red otherwise. */
  function ConfidenceTone(c: A.Confidence): (r: Tone)
    ensures Standing(r) == A.Rank(c)
  {
    if c == A.High then Green
    else if c == A.Medium then Amber
    else Red
  }

  /** `alert.id.slice(0, 6)`: the first six characters, or the whole id
      when it is shorter. */
  function ShortId(id: string): (r: string)
    ensures r <= id
    ensures |r| == if |id| < IdPrefix then |id| else IdPrefix
  {
    Take(id, IdPrefix)
  }

  function Row(a: A.Alert): ReportRow {
    ReportRow(ShortId(a.id), a.category, a.confidence, ConfidenceTone(a.confidence))
  }

  /** The console for a list of alerts: "Pending Review" counts every alert
      passed in, and the table lists the first five alerts, in order. */
  function View(alerts: seq<A.Alert>): (r: ConsoleView)
    ensures r.pendingReview == |alerts|
    ensures |r.rows| == if |alerts| < TableRows then |alerts| else TableRows
    ensures forall i :: 0 <= i < |r.rows| ==>
      && r.rows[i].shortId <= alerts[i].id
      && |r.rows[i].shortId| == (if |alerts[i].id| < IdPrefix then |alerts[i].id| else IdPrefix)
      && r.rows[i].category == alerts[i].category
      && r.rows[i].confidence == alerts[i].confidence
      && Standing(r.rows[i].tone) == A.Rank(alerts[i].confidence)
  {
    var shown := Take(alerts, TableRows);
    ConsoleView(|alerts|, seq(|shown|, i requires 0 <= i < |shown| => Row(shown[i])))
  }

  /** The seeded ids all begin with "alert-", so every row shows the same
      six-character id. */
  lemma SeedIdsLookAlike()
    ensures forall i :: 0 <= i < |View(A.SeedAlerts).rows| ==> View(A.SeedAlerts).rows[i].shortId == "alert-"
  {
    forall i | 0 <= i < |View(A.SeedAlerts).rows|
      ensures View(A.SeedAlerts).rows[i].shortId == "alert-"
    {
      var id := A.SeedAlerts[i].id;
      assert id[..6] == "alert-";
    }
  }
}

=== FILE: overlay.dfy ===
/** The alert detail overlay of src/app/components/AlertDetailOverlay.tsx:
    the confidence timeline (label, colour, progress bar and milestones),
    the guard for a missing alert, and the support button's wiring. */
module Overlay {
  import opened Wrappers
  import A = Alerts
  import C = Console

  /** One entry of the confidence table. */
  datatype LevelConfig = LevelConfig(caption: string, color: string, progress: nat)

  /** What the overlay shows for one alert. `supportTarget` is the id the
      support button passes to its callback, absent when there is no button. */
  datatype OverlayView = OverlayView(
    caption: string,
    color: string,
    progress: nat,
    milestones: seq<bool>,
    supportTarget: Option<string>)

  /** Progress, in percent, of a fully verified report. */
  const FullProgress: nat := 100

  /** The timeline's three labels, in order. */
  const TimelineLabels: seq<string> := ["Reported", "Community Supported", "Verified"]

  /** `confidenceConfig`: a level's caption is the timeline label at its
      rank; progress is 33 for low, 66 for medium and 100 for high. */
  function Config(c: A.Confidence): (r: LevelConfig)
    ensures r.caption == TimelineLabels[A.Rank(c)]
    ensures c == A.Low ==> r.progress == 33
    ensures c == A.Medium ==> r.progress == 66
    ensures c == A.High ==> r.progress == FullProgress
    ensures r.progress <= FullProgress
    ensures r.progress == FullProgress <==> c == A.High
  {
    match c
    case Low => LevelConfig("Reported", "#EF4444", 33)
    case Medium => LevelConfig("Community Supported", "#F59E0B", 66)
    case High => LevelConfig("Verified", "#10B981", 100)
  }

  /** The progress bar grows strictly with the level, and distinct levels
      have distinct captions. */
  lemma ProgressStrictlyIncreasing(c: A.Confidence, d: A.Confidence)
    ensures A.Rank(c) < A.Rank(d) ==> Config(c).progress < Config(d).progress
    ensures Config(c).caption == Config(d).caption <==> c == d
  {
    if c != d {
      assert Config(c).caption[0] != Config(d).caption[0];
    }
  }

  /** The overlay's colour for a level is the colour the console's reports
      table uses for that level. */
  lemma ColorsAgreeWithConsole(c: A.Confidence)
    ensures Config(c).color == C.Hex(C.ConfidenceTone(c))
  {
  }

  /** The three timeline labels, lit as in the source's class conditions:
      label `k` is lit exactly when `k` is at most the level's rank. */
  function Milestones(c: A.Confidence): (r: seq<bool>)
    ensures |r| == 3
    ensures forall k :: 0 <= k < 3 ==> (r[k] <==> k <= A.Rank(c))
  {
    [ c == A.Low || c == A.Medium || c == A.High,
      c == A.Medium || c == A.High,
      c == A.High ]
  }

  function CountLit(lit: seq<bool>): nat {
    if |lit| == 0 then 0 else (if lit[0] then 1 else 0) + CountLit(lit[1..])
  }

  /** Milestone `k` is lit exactly when `k` is at most the level's rank:
      "Reported" always, "Community Supported" from medium, "Verified" only
      at high. So the lit milestones are a prefix, rank + 1 of them. */
  lemma MilestonesFollowRank(c: A.Confidence)
    ensures forall k :: 0 <= k < 3 ==> (Milestones(c)[k] <==> k <= A.Rank(c))
    ensures forall j, k :: 0 <= j <= k < 3 && Milestones(c)[k] ==> Milestones(c)[j]
    ensures CountLit(Milestones(c)) == A.Rank(c) + 1
  {
    var m := Milestones(c);
    assert CountLit([m[2]]) == (if m[2] then 1 else 0) by {
      assert [m[2]][1..] == [];
    }
    assert CountLit(m[1..]) == (if m[1] then 1 else 0) + CountLit([m[2]]) by {
      assert m[1..][1..] == [m[2]];
    }
  }

  /** The overlay for `alert` when open, with or without a support
      callback: nothing for a missing alert or a closed overlay, otherwise
      the alert's timeline and, when a callback is given, a support button
      for the alert's own id. */
  function Render(alert: Option<A.Alert>, isOpen: bool, hasOnSupport: bool): (r: Option<OverlayView>)
    ensures r.None? <==> alert.None? || !isOpen
    ensures r.Some? ==>
      && r.value.caption == Config(alert.value.confidence).caption
      && r.value.color == Config(alert.value.confidence).color
      && r.value.progress == Config(alert.value.confidence).progress
      && (forall k :: 0 <= k < |r.value.milestones| ==> (r.value.milestones[k] <==> k <= A.Rank(alert.value.confidence)))
      && |r.value.milestones| == 3
      && (r.value.supportTarget.Some? <==> hasOnSupport)
      && (hasOnSupport ==> r.value.supportTarget == Some(alert.value.id))
  {
    match alert
    case None => None
    case Some(a) =>
      if !isOpen then None
      else
        var cfg := Config(a.confidence);
        Some(OverlayView(cfg.caption, cfg.color, cfg.progress, Milestones(a.confidence),
          if hasOnSupport then Some(a.id) else None))
  }

  /** Pressing the support button, with the application's handler as the
      callback: no button, nothing to press; otherwise every alert carrying
      the button's id is supported once and every other alert is kept. */
  function PressSupport(alerts: seq<A.Alert>, view: OverlayView): (r: Option<seq<A.Alert>>)
    ensures r.Some? <==> view.supportTarget.Some?
    ensures r.Some? ==> |r.value| == |alerts|
    ensures r.Some? ==> forall i :: 0 <= i < |alerts| ==>
      if alerts[i].id == view.supportTarget.value then A.SupportedOnce(alerts[i], r.value[i])
      else r.value[i] == alerts[i]
  {
    match view.supportTarget
    case None => None
    case Some(id) => Some(A.SupportAlert(alerts, id))
  }

  /** Pressing support in the overlay for the alert at position `i` gives
      that alert exactly one more supporter and leaves alerts with other ids
      alone. */
  lemma OverlaySupportWiring(alerts: seq<A.Alert>, i: int)
    requires 0 <= i < |alerts|
    ensures Render(Some(alerts[i]), true, false).value.supportTarget.None?
    ensures
      var r := PressSupport(alerts, Render(Some(alerts[i]), true, true).value);
      && r.Some?
      && r.value[i].supporters == alerts[i].supporters + 1
      && forall j :: 0 <= j < |alerts| && alerts[j].id != alerts[i].id ==> r.value[j] == alerts[j]
  {
  }
}

=== FILE: seqs.dfy ===
/** Sequence helpers shared by the components: the `Array.prototype.filter`
    and `Array.prototype.slice(0, n)` operations the source calls, and the
    order-preserving subsequence relation they are specified against. */
module Seqs {

  /** `a` is obtained from `b` by deleting elements, keeping the order of the
      rest. Defined independently of Filter: at each element of `b`, either it
      is the next element of `a` or it is skipped. */
  ghost predicate IsSubsequence<T>(a: seq<T>, b: seq<T>)
    decreases |b|
  {
    if |b| == 0 then |a| == 0
    else (|a| > 0 && a[0] == b[0] && IsSubsequence(a[1..], b[1..]))
         || IsSubsequence(a, b[1..])
  }

  /** The elements of `s` that satisfy `p`, in their original order and
      with their multiplicities: every occurrence of a satisfying value is
      kept, every other value is dropped. */
  function Filter<T(!new)>(s: seq<T>, p: T -> bool): (r: seq<T>)
    ensures |r| <= |s|
    ensures forall i :: 0 <= i < |r| ==> p(r[i])
    ensures forall i :: 0 <= i < |s| && p(s[i]) ==> s[i] in r
    ensures IsSubsequence(r, s)
  {
    if |s| == 0 then []
    else if p(s[0]) then [s[0]] + Filter(s[1..], p)
    else Filter(s[1..], p)
  }

  /** Filter keeps every occurrence of a satisfying value and none of the
      others: with `IsSubsequence`, this determines its result. */
  lemma {:induction false} FilterMultiplicity<T(!new)>(s: seq<T>, p: T -> bool)
    ensures forall x :: multiset(Filter(s, p))[x] == if p(x) then multiset(s)[x] else 0
    decreases |s|
  {
    if |s| > 0 {
      FilterMultiplicity(s[1..], p);
      assert s == [s[0]] + s[1..];
    }
  }

  /** The first `min(n, |s|)` elements of `s`. */
  function Take<T>(s: seq<T>, n: nat): (r: seq<T>)
    ensures |r| == if |s| < n then |s| else n
    ensures r <= s
  {
    if |s| <= n then s else s[..n]
  }

  /** A subsequence is never longer than the sequence it is taken from. */
  lemma {:induction false} SubsequenceLength<T>(a: seq<T>, b: seq<T>)
    requires IsSubsequence(a, b)
    ensures |a| <= |b|
    decreases |b|
  {
    if |b| > 0 {
      if |a| > 0 && a[0] == b[0] && IsSubsequence(a[1..], b[1..]) {
        SubsequenceLength(a[1..], b[1..]);
      } else {
        SubsequenceLength(a, b[1..]);
      }
    }
  }

  /** A sequence is a subsequence of any extension of it. */
  lemma {:induction false} PrefixIsSubsequence<T>(s: seq<T>, t: seq<T>)
    ensures IsSubsequence(s, s + t)
    decreases |s| + |t|
  {
    if |s| > 0 {
      assert (s + t)[1..] == s[1..] + t;
      PrefixIsSubsequence(s[1..], t);
    } else if |t| > 0 {
      assert (s + t)[1..] == s + t[1..];
      PrefixIsSubsequence(s, t[1..]);
    }
  }

  /** Filtering with a predicate that holds throughout keeps everything. */
  lemma {:induction false} FilterKeepsAll<T(!new)>(s: seq<T>, p: T -> bool)
    requires forall i :: 0 <= i < |s| ==> p(s[i])
    ensures Filter(s, p) == s
    decreases |s|
  {
    if |s| > 0 {
      FilterKeepsAll(s[1..], p);
      assert [s[0]] + s[1..] == s;
    }
  }

  /** Two predicates that agree on the elements of `s` filter it alike. */
  lemma {:induction false} FilterCongruent<T(!new)>(s: seq<T>, p: T -> bool, q: T -> bool)
    requires forall i :: 0 <= i < |s| ==> p(s[i]) == q(s[i])
    ensures Filter(s, p) == Filter(s, q)
    decreases |s|
  {
    if |s| > 0 {
      FilterCongruent(s[1..], p, q);
    }
  }

  /** A stronger predicate keeps a subsequence of what a weaker one keeps. */
  lemma {:induction false} FilterMonotone<T(!new)>(s: seq<T>, p: T -> bool, q: T -> bool)
    requires forall i :: 0 <= i < |s| ==> p(s[i]) ==> q(s[i])
    ensures IsSubsequence(Filter(s, p), Filter(s, q))
    decreases |s|
  {
    if |s| > 0 {
      FilterMonotone(s[1..], p, q);
      var fp, fq := Filter(s[1..], p), Filter(s[1..], q);
      if p(s[0]) {
        assert Filter(s, p) == [s[0]] + fp && Filter(s, q) == [s[0]] + fq;
        assert ([s[0]] + fp)[1..] == fp && ([s[0]] + fq)[1..] == fq;
      } else if q(s[0]) {
        assert Filter(s, q) == [s[0]] + fq;
        assert ([s[0]] + fq)[1..] == fq;
      }
    }
  }

  /** A predicate and its negation split `s`: the two counts add up to |s|. */
  lemma {:induction false} FilterComplement<T(!new)>(s: seq<T>, p: T -> bool, q: T -> bool)
    requires forall i :: 0 <= i < |s| ==> q(s[i]) == !p(s[i])
    ensures |Filter(s, p)| + |Filter(s, q)| == |s|
    decreases |s|
  {
    if |s| > 0 {
      FilterComplement(s[1..], p, q);
    }
  }

  /** Two predicates that never hold together count at most |s| elements. */
  lemma {:induction false} FilterDisjoint<T(!new)>(s: seq<T>, p: T -> bool, q: T -> bool)
    requires forall i :: 0 <= i < |s| ==> !(p(s[i]) && q(s[i]))
    ensures |Filter(s, p)| + |Filter(s, q)| <= |s|
    decreases |s|
  {
    if |s| > 0 {
      FilterDisjoint(s[1..], p, q);
    }
  }

  /** Sequences that agree element-wise on `p` have equally many `p` elements. */
  lemma {:induction false} FilterCountPointwise<T(!new)>(s: seq<T>, t: seq<T>, p: T -> bool)
    requires |s| == |t|
    requires forall i :: 0 <= i < |s| ==> p(s[i]) == p(t[i])
    ensures |Filter(s, p)| == |Filter(t, p)|
    decreases |s|
  {
    if |s| > 0 {
      FilterCountPointwise(s[1..], t[1..], p);
    }
  }

  /** Filtering a longer sequence never finds fewer matches. */
  lemma {:induction false} FilterCountSubsequence<T(!new)>(a: seq<T>, b: seq<T>, p: T -> bool)
    requires IsSubsequence(a, b)
    ensures |Filter(a, p)| <= |Filter(b, p)|
    decreases |b|
  {
    if |b| > 0 {
      if |a| > 0 && a[0] == b[0] && IsSubsequence(a[1..], b[1..]) {
        FilterCountSubsequence(a[1..], b[1..], p);
      } else {
        FilterCountSubsequence(a, b[1..], p);
      }
    }
  }

  /** Filtering distributes over concatenation, so counts add up. */
  lemma {:induction false} FilterAppend<T(!new)>(s: seq<T>, t: seq<T>, p: T -> bool)
    ensures Filter(s + t, p) == Filter(s, p) + Filter(t, p)
    decreases |s|
  {
    if |s| > 0 {
      assert (s + t)[1..] == s[1..] + t;
      FilterAppend(s[1..], t, p);
    } else {
      assert s + t == t;
    }
  }

  /** A one-element sequence contributes one match exactly when its element
      satisfies `p`. */
  lemma FilterSingleton<T(!new)>(x: T, p: T -> bool)
    ensures |Filter([x], p)| == if p(x) then 1 else 0
  {
    assert [x][1..] == [];
  }
}

=== FILE: text.dfy ===
/** The string operations the user search relies on: `toLowerCase`,
    restricted to ASCII letters, and `includes`, substring search. */
module Text {

  predicate IsUpperAscii(c: char) {
    'A' <= c <= 'Z'
  }

  function LowerChar(c: char): (r: char)
    ensures !IsUpperAscii(r)
  {
    if IsUpperAscii(c) then (c as int + 32) as char else c
  }

  function UpperChar(c: char): (r: char)
    ensures !IsLowerAscii(r)
  {
    if IsLowerAscii(c) then (c as int - 32) as char else c
  }

  predicate IsLowerAscii(c: char) {
    'a' <= c <= 'z'
  }

  /** ASCII upper-casing: same length, no lower-case ASCII letter left, and
      each character lower-cases to what the input's character does. */
  function Upper(s: string): (r: string)
    ensures |r| == |s|
    ensures forall i :: 0 <= i < |r| ==> !IsLowerAscii(r[i])
    ensures forall i :: 0 <= i < |s| ==> LowerChar(r[i]) == LowerChar(s[i])
  {
    seq(|s|, i requires 0 <= i < |s| => UpperChar(s[i]))
  }

  /** ASCII lower-casing: the result has no upper-case ASCII letter and
      upper-cases to the same string as the input, which determines it. */
  function Lower(s: string): (r: string)
    ensures forall i :: 0 <= i < |r| ==> !IsUpperAscii(r[i])
    ensures Upper(r) == Upper(s)
  {
    var r := seq(|s|, i requires 0 <= i < |s| => LowerChar(s[i]));
    assert forall i :: 0 <= i < |s| ==> UpperChar(LowerChar(s[i])) == UpperChar(s[i]);
    r
  }

  /** The two clauses of Lower's contract leave exactly one string. */
  lemma LowerUnique(s: string, t: string)
    requires forall i :: 0 <= i < |t| ==> !IsUpperAscii(t[i])
    requires Upper(t) == Upper(s)
    ensures t == Lower(s)
  {
    assert |t| == |Upper(t)| == |Upper(s)| == |s|;
    forall i | 0 <= i < |s|
      ensures t[i] == LowerChar(s[i])
    {
      assert UpperChar(t[i]) == Upper(t)[i] == Upper(s)[i] == UpperChar(s[i]);
    }
  }

  /** `term` occurs in `text` starting at position `i`. */
  predicate OccursAt(text: string, term: string, i: int) {
    0 <= i && i + |term| <= |text| && text[i..i + |term|] == term
  }

  /** `text.includes(term)`. */
  predicate Contains(text: string, term: string) {
    exists i | 0 <= i <= |text| - |term| :: OccursAt(text, term, i)
  }

  /** Lower-casing is idempotent and forgets the case of its input. */
  lemma LowerIgnoresCase(s: string)
    ensures Lower(Lower(s)) == Lower(s)
    ensures Lower(Upper(s)) == Lower(s)
  {
    assert forall i :: 0 <= i < |s| ==> LowerChar(UpperChar(s[i])) == LowerChar(s[i]);
  }

  /** Every text contains the empty term. */
  lemma ContainsEmpty(text: string)
    ensures Contains(text, "")
  {
    assert OccursAt(text, "", 0);
  }

  /** Containment is transitive: a piece of a piece of `text` is a piece of
      `text`. */
  lemma ContainsTransitive(text: string, mid: string, term: string)
    requires Contains(text, mid) && Contains(mid, term)
    ensures Contains(text, term)
  {
    var i :| 0 <= i <= |text| - |mid| && OccursAt(text, mid, i);
    var j :| 0 <= j <= |mid| - |term| && OccursAt(mid, term, j);
    assert text[i..i + |mid|] == mid;
    forall k | 0 <= k < |term|
      ensures text[i + j + k] == term[k]
    {
      assert term[k] == mid[j + k] == text[i..i + |mid|][j + k];
    }
    assert text[i + j..i + j + |term|] == term;
    assert OccursAt(text, term, i + j);
  }

  /** Lower-casing both sides preserves containment. */
  lemma ContainsLower(text: string, term: string)
    requires Contains(text, term)
    ensures Contains(Lower(text), Lower(term))
  {
    var i :| 0 <= i <= |text| - |term| && OccursAt(text, term, i);
    assert Lower(text)[i..i + |term|] == Lower(term);
    assert OccursAt(Lower(text), Lower(term), i);
  }

  /** `String.prototype.includes` as a left-to-right scan over start
      positions; it finds an occurrence exactly when one exists. */
  method Includes(text: string, term: string) returns (found: bool)
    ensures found <==> Contains(text, term)
  {
    if |term| > |text| {
      return false;
    }
    var i := 0;
    while i <= |text| - |term|
      invariant 0 <= i <= |text| - |term| + 1
      invariant forall j :: 0 <= j < i ==> !OccursAt(text, term, j)
    {
      if text[i..i + |term|] == term {
        assert OccursAt(text, term, i);
        return true;
      }
      i := i + 1;
    }
    found := false;
  }
}

=== FILE: users.dfy ===
/** The user-management screen of src/app/components/UserManagement.tsx:
    the search filter over the user list, the summary counters and the
    role colour lookup. */
module Users {
  import opened Seqs
  import opened Text

  datatype UserStatus = Active | Inactive

  datatype User = User(
    id: string,
    name: string,
    email: string,
    role: string,
    status: UserStatus,
    avatar: string,
    location: string,
    phone: string,
    joinDate: string)

  /** The four counters shown above the table. */
  datatype UserStats = UserStats(total: nat, active: nat, admins: nat, managers: nat)

  const AdminGradient: string := "from-purple-500 to-pink-500"
  const ManagerGradient: string := "from-blue-500 to-teal-500"
  const DefaultGradient: string := "from-gray-400 to-gray-600"

  /** A user matches when the lower-cased term occurs in the lower-cased
      name, email or role. */
  predicate MatchesSearch(u: User, term: string) {
    || Contains(Lower(u.name), Lower(term))
    || Contains(Lower(u.email), Lower(term))
    || Contains(Lower(u.role), Lower(term))
  }

  /** `filteredUsers`: the matching users, in the order of the list. */
  function FilterUsers(users: seq<User>, term: string): (r: seq<User>)
    ensures IsSubsequence(r, users)
    ensures forall i :: 0 <= i < |r| ==> MatchesSearch(r[i], term)
    ensures forall i :: 0 <= i < |users| && MatchesSearch(users[i], term) ==> users[i] in r
  {
    Filter(users, u => MatchesSearch(u, term))
  }

  /** The search keeps every copy of a matching user and no copy of any
      other: with the subsequence clause of FilterUsers, this determines
      the result. */
  lemma FilterUsersKeepsEveryCopy(users: seq<User>, term: string)
    ensures forall u :: multiset(FilterUsers(users, term))[u] == if MatchesSearch(u, term) then multiset(users)[u] else 0
  {
    FilterMultiplicity(users, u => MatchesSearch(u, term));
  }

  /** An empty search box shows every user. */
  lemma EmptyTermKeepsAll(users: seq<User>)
    ensures FilterUsers(users, "") == users
  {
    forall i | 0 <= i < |users|
      ensures MatchesSearch(users[i], "")
    {
      ContainsEmpty(Lower(users[i].name));
    }
    FilterKeepsAll(users, u => MatchesSearch(u, ""));
  }

  /** Matching ignores the case of the term: its upper- and lower-cased
      forms select the same users as the term itself. */
  lemma CaseInsensitiveSearch(users: seq<User>, term: string)
    ensures FilterUsers(users, Upper(term)) == FilterUsers(users, term)
    ensures FilterUsers(users, Lower(term)) == FilterUsers(users, term)
  {
    LowerIgnoresCase(term);
    FilterCongruent(users, u => MatchesSearch(u, Upper(term)), u => MatchesSearch(u, term));
    FilterCongruent(users, u => MatchesSearch(u, Lower(term)), u => MatchesSearch(u, term));
  }

  /** Typing more never adds users: when the old term occurs in the new
      one, the new result is a subsequence of the old. */
  lemma RefinedSearchNarrows(users: seq<User>, term: string, refined: string)
    requires Contains(refined, term)
    ensures IsSubsequence(FilterUsers(users, refined), FilterUsers(users, term))
  {
    ContainsLower(refined, term);
    forall i | 0 <= i < |users| && MatchesSearch(users[i], refined)
      ensures MatchesSearch(users[i], term)
    {
      var u := users[i];
      if Contains(Lower(u.name), Lower(refined)) {
        ContainsTransitive(Lower(u.name), Lower(refined), Lower(term));
      } else if Contains(Lower(u.email), Lower(refined)) {
        ContainsTransitive(Lower(u.email), Lower(refined), Lower(term));
      } else {
        ContainsTransitive(Lower(u.role), Lower(refined), Lower(term));
      }
    }
    FilterMonotone(users, u => MatchesSearch(u, refined), u => MatchesSearch(u, term));
  }

  predicate IsActive(u: User) { u.status == Active }
  predicate IsInactive(u: User) { u.status == Inactive }
  predicate IsAdmin(u: User) { u.role == "Admin" }
  predicate IsManager(u: User) { u.role == "Manager" }

  /** The stats cards: active users and the two role counts are bounded by
      the total, and the two role counts together never exceed it. */
  function Stats(users: seq<User>): (r: UserStats)
    ensures r.total == |users|
    ensures r.active <= r.total
    ensures r.active + |Filter(users, IsInactive)| == r.total
    ensures r.admins + r.managers <= r.total
  {
    FilterDisjoint(users, IsAdmin, IsManager);
    FilterComplement(users, IsActive, IsInactive);
    UserStats(|users|, |Filter(users, IsActive)|, |Filter(users, IsAdmin)|, |Filter(users, IsManager)|)
  }

  /** The counters add up over concatenated lists, and a single user
      counts once in the total and once in each category it belongs to, so
      each counter is the number of users of its kind. */
  lemma StatsCount(users: seq<User>, more: seq<User>, u: User)
    ensures Stats(users + more).total == Stats(users).total + Stats(more).total
    ensures Stats(users + more).active == Stats(users).active + Stats(more).active
    ensures Stats(users + more).admins == Stats(users).admins + Stats(more).admins
    ensures Stats(users + more).managers == Stats(users).managers + Stats(more).managers
    ensures Stats([u]) == UserStats(1, if u.status == Active then 1 else 0,
      if u.role == "Admin" then 1 else 0, if u.role == "Manager" then 1 else 0)
  {
    FilterAppend(users, more, IsActive);
    FilterAppend(users, more, IsAdmin);
    FilterAppend(users, more, IsManager);
    FilterSingleton(u, IsActive);
    FilterSingleton(u, IsAdmin);
    FilterSingleton(u, IsManager);
  }

  /** `getRoleColor`: the exact role names "Admin" and "Manager" get their
      own gradients, any other role the gray default. */
  function RoleColor(role: string): (r: string)
    ensures r == AdminGradient <==> role == "Admin"
    ensures r == ManagerGradient <==> role == "Manager"
    ensures r == DefaultGradient <==> role != "Admin" && role != "Manager"
  {
    if role == "Admin" then AdminGradient
    else if role == "Manager" then ManagerGradient
    else DefaultGradient
  }

  /** Unlike the search, the colour lookup is case-sensitive: "admin" is
      found by a search for "Admin" but is coloured gray. */
  lemma RoleColorCaseSensitive(u: User)
    requires u.role == "admin"
    ensures RoleColor(u.role) == DefaultGradient
    ensures MatchesSearch(u, "Admin")
  {
    assert Lower(u.role) == Lower("Admin");
    assert OccursAt(Lower(u.role), Lower("Admin"), 0);
  }
}

=== FILE: wrappers.dfy ===
/** Optional values, used for the source's optional record fields and for
    lookups that can come back empty. */
module Wrappers {

  datatype Option<+T> = None | Some(value: T)
}
